=== FILE: README.md ===
# Endpoint hub bookkeeping, in Dafny

A model of the `Endpoint` hub of virgo.js (`lib/endpoint.js`). The endpoint is a TLS rendezvous point. Agents connect to it, and feature plugins read the merged inbound traffic and write outbound objects. Each outbound object is routed to the one agent named by its `destination.id`. This project models the hub's bookkeeping as an immutable record with pure transition functions:

- **Options** (`Config`): `options || {}`, `port || 443`, `source || 'endpoint'`, with JavaScript falsiness. Port 0 and the empty source fall back to the defaults.
- **Manifest** (`Features`): feature name to descriptor, built once in list order. The later of two features with the same name wins.
- **Registry, router and message counter** (`Endpoint`): `State` holds the manifest, the registry `map<string, Conn>` and the `msg_id` counter. Three kinds of `Event` act on a hub: a handshake completing, a feature writing an envelope, and a call to `msg_id()`. `Execute` runs a sequence of events and collects the `Output`s: writes handed to a connection, issued ids and thrown exceptions.
- **Lifecycle** (`Lifecycle`): the order of the calls `run` starts, and the trace of `shutdown`. When each feature calls back, with or without an error, is an input. A callback can fire inside the feature's own `shutdown` call or after later features have been called.
- **The code as written** (`AsWritten`): the two lines that cannot work as written (see "## Findings").

Property keys follow JavaScript. `connections[x]` converts `x` to a string, so an undefined `agent_id` or `destination.id` becomes the key `"undefined"`. A failed handshake is registered anyway, because the callback ignores `err`. An envelope without `destination` throws TypeError.

The code's behaviour, which the model follows:

- The code never removes a registry entry. There is no deregistration, so the key set only grows.
- The code never rejects a duplicate agent id. A second handshake under the same id replaces the earlier connection.
- A route miss is silent. Nothing is written and the write callback is never called.
- `shutdown` calls every feature's `shutdown` in list order without waiting. It closes the server as soon as the first n callbacks, for n features, have all reported success. If every feature calls back once, this means every feature reported success. The first error reaches the caller, whether it comes before or after the close. Before the close, it ends the series without a close, but the loop still calls the features not yet called. Every callback after that first error is ignored.
- If `run` was never called, the close step throws TypeError because `self.server` is undefined.

## Model

Five members define behaviour without a contract of their own; the rows below state their properties.
- `Lifecycle.StartupCalls` (lib/endpoint.js:66-78) is stated by `Lifecycle.StartupCallsEachInitOnce`.
- `Endpoint.Execute` (lib/endpoint.js:55-126) is stated by the `Endpoint.Execute…` and `Endpoint.FreshEndpoint…` rows.
- `Lifecycle.Join`, `Lifecycle.ShutdownTrace` and `Lifecycle.Shutdown` (lib/endpoint.js:108-122) are stated by the `Lifecycle.Join…`, `Lifecycle.Shutdown…`, `Lifecycle.CloseAtMostOnce`, `Lifecycle.EveryFeatureStopsBeforeClose` rows and the four concrete traces.

| member | source | states |
|---|---|---|
| Config.ResolvePort | lib/endpoint.js:27-31 | the port is the option when it is truthy (present and non-zero), otherwise 443; never 0 |
| Config.ResolveSource | lib/endpoint.js:27-32 | the source is the option when it is truthy (present and non-empty), otherwise "endpoint"; never empty |
| Config.ResolveIsFixpoint | lib/endpoint.js:27-32 | feeding the resolved port and source back in as options changes neither |
| Config.FalsyOptionsUseDefaults | lib/endpoint.js:27-32 | missing options, a missing port or source, port 0 and the empty source all give 443 and "endpoint" |
| Features.BuildManifest | lib/endpoint.js:34-37 | the manifest's keys are exactly the features' names, and each key holds the descriptor of the last feature in list order declaring it |
| Features.ManifestEntriesAreLastDeclarations | lib/endpoint.js:34-37 | every declared name has a manifest entry, which is a descriptor filed under its own name and comes from the last feature in list order that declares it |
| Features.DistinctNamesAllListed | lib/endpoint.js:34-37 | with distinct names, every feature's descriptor is in the manifest under its own name |
| Endpoint.Construct | lib/endpoint.js:24-47 | a new hub keeps the feature list, its manifest is the one built from the features (covering exactly their names), its port and source are the resolved option values (so never 0 or empty), the registry is empty, the counter is 0 and no server exists |
| Endpoint.Run | lib/endpoint.js:49-55 | after `run` the server exists and nothing else in the hub changes |
| Endpoint.Register | lib/endpoint.js:58-60 | the connection is stored under its agent id, replacing any earlier one; the key set gains exactly that id; all other entries and the rest of the hub are unchanged |
| Endpoint.ChooseConnection | lib/endpoint.js:103-106 | a missing destination throws TypeError; otherwise the result is the registered connection exactly when the destination id is registered |
| Endpoint.Route | lib/endpoint.js:90-100 | a registered destination gets exactly one write, to its own connection; an unregistered one gets no write and no callback; a missing destination throws |
| Endpoint.MsgId | lib/endpoint.js:124-126 | returns the counter's value before the call and leaves the counter one higher, the rest of the hub unchanged |
| Endpoint.Step | lib/endpoint.js:55-126 | no event changes the manifest, features, port or source; routing changes nothing at all; the registry key set never shrinks; only `msg_id` moves the counter, by one |
| Endpoint.ExecuteKeepsSetup | lib/endpoint.js:24-47 | after any event sequence the manifest, features, port and source are those fixed at construction |
| Endpoint.ExecuteNeverShrinksRegistry | lib/endpoint.js:55-106 | after any event sequence every agent id registered before is still registered |
| Endpoint.ExecuteLastHandshakeWins | lib/endpoint.js:58-60 | after any event sequence each id holds the connection of its last handshake, or, without one, exactly what it held before |
| Endpoint.HandshakeErrorIgnored | lib/endpoint.js:58-60 | a handshake reporting an error registers the connection exactly as a successful one does |
| Endpoint.ExecuteIssuesConsecutiveIds | lib/endpoint.js:124-126 | however they interleave with other events, the `msg_id` results are consecutive from the counter's starting value, and the counter ends higher by the number of calls |
| Endpoint.FreshEndpointIds | lib/endpoint.js:29-29 | on a new hub the k-th `msg_id` result is k-1, and each result is the previous one plus 1 |
| Endpoint.ExecuteDeliversToAddressee | lib/endpoint.js:58-106 | if every registered connection's agent id is its key, that stays true after any event sequence, and every write goes to a connection whose agent id is the envelope's destination id |
| Endpoint.FreshEndpointDeliversToAddressee | lib/endpoint.js:24-106 | on a new hub after `run`, for any event sequence, every write goes to a connection whose agent id is the envelope's destination id |
| Endpoint.ThreeAgentScenario | lib/endpoint.js:90-106 | with agents a1, a2 and a3 registered, a write addressed to a2 produces exactly one write, to a2's connection |
| Lifecycle.StartupCallsEachInitOnce | lib/endpoint.js:66-78 | `run` starts listening first and calls each feature's `init` exactly once, for existing features only |
| Lifecycle.JoinCloses | lib/endpoint.js:111-121 | from any point of the shutdown, the server is closed exactly when the callbacks are still being collected, the server exists, and the next callbacks, as many as the features still to report, all report success |
| Lifecycle.JoinClosesAtMostOnce | lib/endpoint.js:111-121 | from any point of the shutdown, the server close appears at most once |
| Lifecycle.JoinCallsBeforeReturns | lib/endpoint.js:113-115 | when features call back only after being called, each callback comes after the loop's call of that feature's `shutdown` |
| Lifecycle.JoinReturnsBeforeClose | lib/endpoint.js:111-121 | the server close comes after every callback the close waited for, each of which reported success |
| Lifecycle.ShutdownClosesIffAllSucceeded | lib/endpoint.js:108-122 | the server is closed if and only if it exists and the first n callbacks, for n features, all report success |
| Lifecycle.ShutdownClosesIffEveryFeatureSucceeded | lib/endpoint.js:108-122 | when each existing feature calls back at most once, and only after being called, the server is closed if and only if it exists and every feature reported success |
| Lifecycle.CloseAtMostOnce | lib/endpoint.js:108-122 | the server close happens at most once in a shutdown |
| Lifecycle.EveryFeatureStopsBeforeClose | lib/endpoint.js:108-122 | when each existing feature calls back at most once, and only after being called, every feature's `shutdown` is called and then reports success before the close |
| Lifecycle.SynchronousCallbacksInterleave | lib/endpoint.js:111-121 | with two features that call back inside their own `shutdown`, each call is followed at once by its callback, and the close comes last |
| Lifecycle.EarlyErrorStillCallsTheRest | lib/endpoint.js:111-121 | an error from the first feature ends the series with no close, yet the second feature's `shutdown` is still called |
| Lifecycle.LateErrorAfterCloseReachesCaller | lib/endpoint.js:111-121 | a feature that calls back with success and then with an error gets the server closed and then has its error passed to the caller; a further callback is ignored |
| Lifecycle.NoFeaturesCloseAtOnce | lib/endpoint.js:111-121 | with no features the server is closed straight away |
| AsWritten.ChooseConnectionAsWrittenNeverFinds | lib/endpoint.js:105-105 | the lookup as written fails even for a registered destination, which the corrected lookup finds |
| AsWritten.WritableAsWrittenNeverDelivers | lib/endpoint.js:93-93 | as written, `writable()` yields no sink, so a write the corrected router would deliver never happens |

## Left out

- TLS server creation, certificate loading, `listen` and binding, and logging. These are network I/O and calls into other libraries. `Run` only records that the server exists.
- `readable()` and the fan-in merger (`FanOut`, `new_consumer`, `utils.merge_into`). They live in `lib/fan_out.js` and `lib/utils.js`, which are not part of this model.
- The connection handshake itself (`lib/connection.js` is not part of this model). A completed handshake is an input event carrying the connection and its `agent_id`.
- Node stream mechanics: encoding, buffering and back-pressure of `stream.Writable`. After a route miss the write callback is never called, and Node would hold back later writes on that sink. That stall is not modelled.
- The concurrent startup under `async.auto`. Only the synchronous order of calls is modelled (listen, then each `init`). When `run`'s callback fires, and with which error, is not modelled.
- Lifecycle.EveryFeatureStopsBeforeClose: assumes each existing feature calls back at most once, and only after its own `shutdown` was called. A feature that calls back twice could make `async.forEach` finish early. That depends on the unmodelled library.
- Lifecycle.ShutdownClosesIffEveryFeatureSucceeded: makes the same assumption. Without it, `Lifecycle.ShutdownClosesIffAllSucceeded` gives the model's close condition in terms of the first n callbacks.
- Lifecycle.Join: repeated callbacks are counted the way `async` 0.1's `forEach` counts them. Successes are counted until they reach n, the first error is passed on (even after the close), and every callback after that error is ignored. The code does not pin its `async` release. Later releases reject a callback that is called twice, and that behaviour is not modelled.
- Lifecycle.JoinCallsBeforeReturns: assumes a callback only comes after its feature's call, as the `after` count of each completion says.
- The close step is a single `ServerClose` (or `CloseThrew`) event. When `_handle.close` calls back, and with which error, is not modelled. Callbacks and loop calls after the close still appear in the trace.
- The unused `has_consumer` field.
- The registry and the manifest are plain objects (lib/endpoint.js:28, 36, 39 and 60). Their inherited properties, such as `toString` or `constructor`, are not modelled. Both are maps holding their own keys only. The key `__proto__` is not modelled either: assigning an agent id or a feature name `"__proto__"` replaces the object's prototype instead of adding an entry.
- Option values of other JavaScript types, such as a port given as a string or NaN, are not modelled. The port is an integer and the source a string.
- `features` being undefined is not modelled. It is a sequence, possibly empty.
- Descriptor names are strings. A descriptor without a `name` would be filed under "undefined". That case is not modelled.
- Endpoint.MsgId: the counter is an unbounded natural number. A JavaScript number stops counting exactly past 2^53, and that limit is not modelled.

## Findings

| source | as written | input that shows it | evidently intended | confidence | as-written member | corrected member |
|---|---|---|---|---|---|---|
| lib/endpoint.js:105 | `_choose_connection` reads `self.connections`, but `self` is not bound in that method or the module | any envelope, e.g. `destination.id = "a2"` with "a2" registered: evaluating `self` throws ReferenceError | `this.connections[data.destination.id]` | not executed; high | AsWritten.ChooseConnectionAsWrittenNeverFinds | Endpoint.ChooseConnection |
| lib/endpoint.js:93 | `writable.prototype._write = ...` on the instance that `stream.Writable(...)` returns, which has no `prototype` | any call of `writable()`: assigning a property of `undefined` throws TypeError, so no feature gets a sink | an instance `_write` that routes each object through `_choose_connection` | not executed; high | AsWritten.WritableAsWrittenNeverDelivers | Endpoint.Route |

=== FILE: as_written.dfy ===
/** Two lines of lib/endpoint.js as they are written, next to the corrected
    behaviour the Endpoint module uses. */
module AsWritten {
  import opened Js
  import opened Endpoint

  /** `_choose_connection` as written (lib/endpoint.js:103-106): the body
      reads `self.connections`, but `self` is declared in neither the method
      nor the module, so evaluating it throws ReferenceError before the
      destination is even read. */
  function ChooseConnectionAsWritten(h: State, env: Envelope): Result<Option<Conn>, JsError> {
    Failure(ReferenceError)
  }

  /** Whatever is registered, the lookup as written finds nothing, while the
      corrected `ChooseConnection` returns the registered connection. */
  lemma ChooseConnectionAsWrittenNeverFinds(h: State, env: Envelope)
    requires env.destination.Some? && DestinationKey(env.destination.value) in h.connections
    ensures ChooseConnectionAsWritten(h, env).Failure?
    ensures ChooseConnection(h, env) == Success(Some(h.connections[DestinationKey(env.destination.value)]))
  {
  }

  /** `writable()` as written (lib/endpoint.js:90-101): `stream.Writable(...)`
      returns an instance, which has no `prototype` property, so assigning
      `writable.prototype._write` throws TypeError and no sink is returned.
      Only the outcome is kept: success would carry the sink. */
  function WritableAsWritten(h: State): Result<(), JsError> {
    Failure(TypeError)
  }

  /** As written, no feature ever obtains a sink, so an envelope for a
      registered agent is never delivered; with the intended instance
      `_write` (`Route`) it is delivered once, to that agent. */
  lemma WritableAsWrittenNeverDelivers(h: State, env: Envelope)
    requires env.destination.Some? && DestinationKey(env.destination.value) in h.connections
    ensures WritableAsWritten(h).Failure?
    ensures Route(h, env) == [Sent(h.connections[DestinationKey(env.destination.value)], env)]
  {
  }
}

=== FILE: config.dfy ===
/** Option defaulting done by the `Endpoint` constructor (lib/endpoint.js:27,31-32). */
module Config {
  import opened Js

  /** The options the endpoint reads. An absent field is `None`; JavaScript
      falsiness of a present field (port 0, the empty source) is handled by
      `TruthyPort` and `TruthySource`. TLS material is not modelled. */
  datatype Options = Options(port: Option<int>, source: Option<string>)

  const DefaultPort: int := 443
  const DefaultSource: string := "endpoint"

  /** The empty object `{}`. */
  const NoOptions: Options := Options(None, None)

  /** `options || {}`: undefined or null options (both `None`) behave as the empty object. */
  function Effective(options: Option<Options>): Options {
    match options
    case None => NoOptions
    case Some(o) => o
  }

  /** JavaScript truthiness of a numeric option: present and not zero. */
  predicate TruthyPort(v: Option<int>) {
    v.Some? && v.value != 0
  }

  /** JavaScript truthiness of a string option: present and not empty. */
  predicate TruthySource(v: Option<string>) {
    v.Some? && v.value != ""
  }

  /** `this.options.port || 443` */
  function ResolvePort(options: Option<Options>): (port: int)
    ensures port != 0
    ensures TruthyPort(Effective(options).port) ==> port == Effective(options).port.value
    ensures !TruthyPort(Effective(options).port) ==> port == DefaultPort
  {
    var o := Effective(options);
    if TruthyPort(o.port) then o.port.value else DefaultPort
  }

  /** `this.options.source || 'endpoint'` */
  function ResolveSource(options: Option<Options>): (source: string)
    ensures source != ""
    ensures TruthySource(Effective(options).source) ==> source == Effective(options).source.value
    ensures !TruthySource(Effective(options).source) ==> source == DefaultSource
  {
    var o := Effective(options);
    if TruthySource(o.source) then o.source.value else DefaultSource
  }

  /** Defaulting is idempotent: passing the resolved port and source back in
      as explicit options yields them unchanged, because both are truthy. */
  lemma ResolveIsFixpoint(options: Option<Options>)
    ensures var again := Some(Options(Some(ResolvePort(options)), Some(ResolveSource(options))));
            ResolvePort(again) == ResolvePort(options) && ResolveSource(again) == ResolveSource(options)
  {
  }

  /** Missing options, null options, and falsy values all fall back to the
      defaults; in particular port 0 and the empty source are not kept. */
  lemma FalsyOptionsUseDefaults(port: Option<int>, source: Option<string>)
    requires port == None || port == Some(0)
    requires source == None || source == Some("")
    ensures ResolvePort(None) == DefaultPort && ResolveSource(None) == DefaultSource
    ensures ResolvePort(Some(Options(port, source))) == DefaultPort
    ensures ResolveSource(Some(Options(port, source))) == DefaultSource
  {
  }
}

=== FILE: endpoint.dfy ===
/** The bookkeeping of the `Endpoint` hub (lib/endpoint.js): manifest, option
    defaults, the connection registry keyed by agent id, the router behind
    `writable()`, and the `msg_id` counter. The hub is an immutable record;
    everything that happens to it after construction is an `Event`, and
    `Execute` runs a sequence of events. */
module Endpoint {
  import opened Js
  import opened Config
  import opened Features

  /** A connection after its handshake. `handle` stands for the object's
      identity; `agentId` is `conn.agent_id`, possibly undefined when the
      handshake reported an error. */
  datatype Conn = Conn(handle: nat, agentId: Option<string>)

  /** `destination` of an outbound object; `id` may be undefined. */
  datatype Destination = Destination(id: Option<string>)

  /** An object a feature writes into its sink. `destination` may be missing. */
  datatype Envelope = Envelope(destination: Option<Destination>, body: string)

  /** The hub record. `running` records that `run` created the TLS server. */
  datatype State = State(
    features: seq<Feature>,
    manifest: Manifest,
    port: int,
    source: string,
    connections: map<string, Conn>,
    msgId: nat,
    running: bool)

  /** The registry key of a connection: `connections[conn.agent_id]`. */
  function AgentKey(c: Conn): string {
    PropertyKey(c.agentId)
  }

  /** The registry key a destination is looked up under. */
  function DestinationKey(d: Destination): string {
    PropertyKey(d.id)
  }

  /** `new Endpoint(features, options)`: manifest built, defaults applied,
      empty registry, counter at zero, no server yet. */
  function Construct(features: seq<Feature>, options: Option<Options>): (h: State)
    ensures h.features == features
    ensures h.manifest == BuildManifest(features) && h.manifest.Keys == Names(features)
    ensures h.port == ResolvePort(options) && h.source == ResolveSource(options)
    ensures h.port != 0 && h.source != ""
    ensures h.connections == map[] && h.msgId == 0 && !h.running
  {
    State(features, BuildManifest(features), ResolvePort(options), ResolveSource(options),
          map[], 0, false)
  }

  /** The bookkeeping part of `run`: the server now exists. Binding, TLS and
      feature `init` calls are in the Lifecycle module or left out. */
  function Run(h: State): (h': State)
    ensures h'.running
    ensures h'.(running := h.running) == h
  {
    h.(running := true)
  }

  /** The `conn.connect` callback: `connections[conn.agent_id] = conn`,
      whatever `err` was. An earlier connection under the same key is
      replaced; every other entry is kept. */
  function Register(h: State, c: Conn): (h': State)
    ensures AgentKey(c) in h'.connections && h'.connections[AgentKey(c)] == c
    ensures h'.connections.Keys == h.connections.Keys + {AgentKey(c)}
    ensures forall k :: k in h.connections && k != AgentKey(c) ==>
      h'.connections[k] == h.connections[k]
    ensures h'.(connections := h.connections) == h
  {
    h.(connections := h.connections[AgentKey(c) := c])
  }

  /** `_choose_connection(data)`: `this.connections[data.destination.id]`.
      The source reads `self.connections`, but `self` is not bound in this
      method; this is the evidently intended `this` (the code as written is
      in the AsWritten module). A missing `destination` throws TypeError. */
  function ChooseConnection(h: State, env: Envelope): (r: Result<Option<Conn>, JsError>)
    ensures r.Failure? <==> env.destination.None?
    ensures r.Failure? ==> r.error == TypeError
    ensures r.Success? ==> (r.value.Some? <==> DestinationKey(env.destination.value) in h.connections)
    ensures r.Success? && r.value.Some? ==> r.value.value == h.connections[DestinationKey(env.destination.value)]
  {
    match env.destination
    case None => Failure(TypeError)
    case Some(d) =>
      var k := DestinationKey(d);
      if k in h.connections then Success(Some(h.connections[k])) else Success(None)
  }

  /** What the hub does, visible from outside. `Sent(c, e)` is the call
      `c.write(e, encoding, callback)`, which hands the write callback to the
      connection; `Issued(n)` is a `msg_id()` result; `Thrown(e)` an
      exception escaping the hub. */
  datatype Output = Sent(conn: Conn, env: Envelope) | Issued(id: nat) | Thrown(error: JsError)

  /** The `_write` of the sink that `writable()` returns. The source assigns
      it to `writable.prototype._write`, which does not exist on a stream
      instance; this is the evidently intended instance `_write`. A miss
      writes nothing and never invokes the callback. */
  function Route(h: State, env: Envelope): (out: seq<Output>)
    ensures |out| <= 1
    ensures env.destination.None? ==> out == [Thrown(TypeError)]
    ensures env.destination.Some? && DestinationKey(env.destination.value) in h.connections ==>
      out == [Sent(h.connections[DestinationKey(env.destination.value)], env)]
    ensures env.destination.Some? && DestinationKey(env.destination.value) !in h.connections ==>
      out == []
  {
    match ChooseConnection(h, env)
    case Failure(e) => [Thrown(e)]
    case Success(None) => []
    case Success(Some(c)) => [Sent(c, env)]
  }

  /** `msg_id()`: `return this._msg_id++`. */
  function MsgId(h: State): (r: (nat, State))
    ensures r.0 == h.msgId
    ensures r.1.msgId == r.0 + 1
    ensures r.1.(msgId := h.msgId) == h
  {
    (h.msgId, h.(msgId := h.msgId + 1))
  }

  /** Things that happen to a constructed hub. */
  datatype Event =
    | Handshake(conn: Conn, failed: bool)  // `conn.connect` calls back, `failed` is `err`
    | Write(env: Envelope)                 // a feature writes into its sink
    | NextMsgId                            // a feature calls `msg_id()`

  datatype StepResult = StepResult(state: State, out: seq<Output>)

  /** Everything except the registry and the counter is fixed after construction. */
  predicate SameSetup(h: State, h': State) {
    h'.features == h.features && h'.manifest == h.manifest && h'.port == h.port
    && h'.source == h.source && h'.running == h.running
  }

  /** One event. */
  function Step(h: State, e: Event): (r: StepResult)
    ensures SameSetup(h, r.state)
    ensures h.connections.Keys <= r.state.connections.Keys
    ensures e.Write? ==> r.state == h
    ensures r.state.msgId == if e.NextMsgId? then h.msgId + 1 else h.msgId
    ensures !e.Handshake? ==> r.state.connections == h.connections
  {
    match e
    case Handshake(c, _) => StepResult(Register(h, c), [])
    case Write(env) => StepResult(h, Route(h, env))
    case NextMsgId => var (id, h') := MsgId(h); StepResult(h', [Issued(id)])
  }

  /** Events in order; outputs are concatenated in the same order. */
  function Execute(h: State, es: seq<Event>): StepResult
    decreases |es|
  {
    if |es| == 0 then StepResult(h, [])
    else
      var first := Step(h, es[0]);
      var rest := Execute(first.state, es[1..]);
      StepResult(rest.state, first.out + rest.out)
  }

  /** The manifest, the features, the port and the source never change. */
  lemma {:induction false} ExecuteKeepsSetup(h: State, es: seq<Event>)
    ensures SameSetup(h, Execute(h, es).state)
    decreases |es|
  {
    if |es| > 0 {
      ExecuteKeepsSetup(Step(h, es[0]).state, es[1..]);
    }
  }

  /** No event removes a registry entry: the key set never shrinks. */
  lemma {:induction false} ExecuteNeverShrinksRegistry(h: State, es: seq<Event>)
    ensures h.connections.Keys <= Execute(h, es).state.connections.Keys
    decreases |es|
  {
    if |es| > 0 {
      ExecuteNeverShrinksRegistry(Step(h, es[0]).state, es[1..]);
    }
  }

  /** The connection of the last handshake in `es` that registers under `k`. */
  function LastHandshake(es: seq<Event>, k: string): Option<Conn>
    decreases |es|
  {
    if |es| == 0 then None
    else
      match LastHandshake(es[1..], k)
      case Some(c) => Some(c)
      case None =>
        if es[0].Handshake? && AgentKey(es[0].conn) == k then Some(es[0].conn) else None
  }

  /** Replace policy for duplicate agents: after any events, key `k` holds
      the connection of the last handshake under `k`, or, if there was none,
      exactly what it held before. */
  lemma {:induction false} ExecuteLastHandshakeWins(h: State, es: seq<Event>, k: string)
    ensures var final := Execute(h, es).state.connections;
      match LastHandshake(es, k)
      case Some(c) => k in final && final[k] == c
      case None => (k in final <==> k in h.connections) && (k in final ==> final[k] == h.connections[k])
    decreases |es|
  {
    if |es| > 0 {
      var h1 := Step(h, es[0]).state;
      ExecuteLastHandshakeWins(h1, es[1..], k);
      if LastHandshake(es[1..], k).None? && es[0].Handshake? && AgentKey(es[0].conn) == k {
        assert k in h1.connections && h1.connections[k] == es[0].conn;
      }
    }
  }

  /** The handshake error is ignored: a failed handshake registers exactly
      like a successful one. */
  lemma HandshakeErrorIgnored(h: State, c: Conn)
    ensures Step(h, Handshake(c, true)) == Step(h, Handshake(c, false))
    ensures AgentKey(c) in Step(h, Handshake(c, true)).state.connections
  {
  }

  /** Every registry entry is filed under its own connection's agent id. */
  predicate Addressed(h: State) {
    forall k :: k in h.connections ==> AgentKey(h.connections[k]) == k
  }

  /** Every write in `out` goes to the connection whose agent id is the
      envelope's destination. */
  predicate SentToAddressee(out: seq<Output>) {
    forall i :: 0 <= i < |out| && out[i].Sent? ==>
      out[i].env.destination.Some? && AgentKey(out[i].conn) == DestinationKey(out[i].env.destination.value)
  }

  lemma AppendSentToAddressee(a: seq<Output>, b: seq<Output>)
    requires SentToAddressee(a) && SentToAddressee(b)
    ensures SentToAddressee(a + b)
  {
    forall i | 0 <= i < |a + b| && (a + b)[i].Sent?
      ensures (a + b)[i].env.destination.Some?
      ensures AgentKey((a + b)[i].conn) == DestinationKey((a + b)[i].env.destination.value)
    {
      if i >= |a| { assert (a + b)[i] == b[i - |a|]; } else { assert (a + b)[i] == a[i]; }
    }
  }

  /** Over any events, starting from a hub whose entries are filed under
      their own agent ids (a new hub is), the registry stays that way and
      every delivered envelope reaches the agent it names. */
  lemma {:induction false} ExecuteDeliversToAddressee(h: State, es: seq<Event>)
    requires Addressed(h)
    ensures Addressed(Execute(h, es).state)
    ensures SentToAddressee(Execute(h, es).out)
    decreases |es|
  {
    if |es| > 0 {
      var first := Step(h, es[0]);
      assert Addressed(first.state);
      assert SentToAddressee(first.out) by {
        if es[0].Write? && es[0].env.destination.Some? {
          var k := DestinationKey(es[0].env.destination.value);
          if k in h.connections { assert AgentKey(h.connections[k]) == k; }
        }
      }
      ExecuteDeliversToAddressee(first.state, es[1..]);
      AppendSentToAddressee(first.out, Execute(first.state, es[1..]).out);
    }
  }

  /** On a new hub, whatever happens, every delivered envelope reaches the
      agent it names. */
  lemma FreshEndpointDeliversToAddressee(features: seq<Feature>, options: Option<Options>, es: seq<Event>)
    ensures SentToAddressee(Execute(Run(Construct(features, options)), es).out)
  {
    ExecuteDeliversToAddressee(Run(Construct(features, options)), es);
  }

  /** `msg_id` results among the outputs, in order. */
  function IssuedIds(out: seq<Output>): seq<nat>
    decreases |out|
  {
    if |out| == 0 then []
    else (if out[0].Issued? then [out[0].id] else []) + IssuedIds(out[1..])
  }

  /** How many `msg_id()` calls `es` contains. */
  function IdRequests(es: seq<Event>): nat
    decreases |es|
  {
    if |es| == 0 then 0 else (if es[0].NextMsgId? then 1 else 0) + IdRequests(es[1..])
  }

  /** `n` consecutive integers starting at `lo`. */
  function Consecutive(lo: nat, n: nat): (r: seq<nat>)
    ensures |r| == n
    ensures forall i :: 0 <= i < n ==> r[i] == lo + i
  {
    seq(n, i requires 0 <= i < n => lo + i)
  }

  lemma {:induction false} IssuedIdsAppend(a: seq<Output>, b: seq<Output>)
    ensures IssuedIds(a + b) == IssuedIds(a) + IssuedIds(b)
    decreases |a|
  {
    if |a| > 0 {
      assert (a + b)[1..] == a[1..] + b;
      IssuedIdsAppend(a[1..], b);
    } else {
      assert a + b == b;
    }
  }

  /** `msg_id` hands out consecutive values, however its calls interleave
      with handshakes and writes: the k-th call after a state with counter
      `c` returns `c + k - 1`, and the counter ends `IdRequests(es)` higher. */
  lemma {:induction false} ExecuteIssuesConsecutiveIds(h: State, es: seq<Event>)
    ensures IssuedIds(Execute(h, es).out) == Consecutive(h.msgId, IdRequests(es))
    ensures Execute(h, es).state.msgId == h.msgId + IdRequests(es)
    decreases |es|
  {
    if |es| > 0 {
      var first := Step(h, es[0]);
      ExecuteIssuesConsecutiveIds(first.state, es[1..]);
      IssuedIdsAppend(first.out, Execute(first.state, es[1..]).out);
      assert IssuedIds(first.out) == if es[0].NextMsgId? then [h.msgId] else [] by {
        if !es[0].NextMsgId? && es[0].Write? {
          assert |first.out| <= 1;
        }
      }
    }
  }

  /** On a fresh endpoint the first `msg_id()` returns 0, the k-th returns
      k - 1, and each result is exactly one more than the one before. */
  lemma FreshEndpointIds(features: seq<Feature>, options: Option<Options>, es: seq<Event>)
    ensures var ids := IssuedIds(Execute(Construct(features, options), es).out);
      |ids| == IdRequests(es)
      && (forall i :: 0 <= i < |ids| ==> ids[i] == i)
      && (forall i :: 0 < i < |ids| ==> ids[i] == ids[i - 1] + 1)
  {
    ExecuteIssuesConsecutiveIds(Construct(features, options), es);
  }

  /** The scenario of two features and three agents "a1", "a2", "a3": a
      write addressed to "a2" reaches that connection once and nothing else. */
  lemma ThreeAgentScenario()
    ensures
      var c1 := Conn(1, Some("a1"));
      var c2 := Conn(2, Some("a2"));
      var c3 := Conn(3, Some("a3"));
      var env := Envelope(Some(Destination(Some("a2"))), "payload:1");
      var h := Run(Construct([Feature(Descriptor("A", map[])), Feature(Descriptor("B", map[]))], None));
      Execute(h, [Handshake(c1, false), Handshake(c2, false), Handshake(c3, false), Write(env)]).out
        == [Sent(c2, env)]
  {
    var c1 := Conn(1, Some("a1"));
    var c2 := Conn(2, Some("a2"));
    var c3 := Conn(3, Some("a3"));
    var env := Envelope(Some(Destination(Some("a2"))), "payload:1");
    var h := Run(Construct([Feature(Descriptor("A", map[])), Feature(Descriptor("B", map[]))], None));
    var es := [Handshake(c1, false), Handshake(c2, false), Handshake(c3, false), Write(env)];
    var h1 := Register(h, c1);
    var h2 := Register(h1, c2);
    var h3 := Register(h2, c3);
    assert h3.connections["a2"] == c2;
    assert Execute(h3, es[3..]).out == [Sent(c2, env)] by {
      assert es[3..][1..] == [];
    }
    assert es[2..][1..] == es[3..];
    assert Execute(h2, es[2..]).out == [Sent(c2, env)];
    assert es[1..][1..] == es[2..];
    assert Execute(h1, es[1..]).out == [Sent(c2, env)];
    assert Execute(h, es).out == [Sent(c2, env)];
  }
}

=== FILE: features.dfy ===
/** Feature descriptors and the manifest the `Endpoint` constructor builds
    from them (lib/endpoint.js:34-37). */
module Features {

  /** What `f.meta()` returns: a name plus other descriptive fields. */
  datatype Descriptor = Descriptor(name: string, fields: map<string, string>)

  /** A feature plugin as the hub sees it at construction. Its `init` and
      `shutdown` callbacks appear as events in the Lifecycle module. */
  datatype Feature = Feature(meta: Descriptor)

  /** Feature name to descriptor. */
  type Manifest = map<string, Descriptor>

  /** The names the features declare. */
  function Names(fs: seq<Feature>): set<string> {
    set i | 0 <= i < |fs| :: fs[i].meta.name
  }

  /** Feature `i` is the last one in list order that declares its name. */
  predicate DeclaredLast(fs: seq<Feature>, i: int) {
    0 <= i < |fs| && forall j :: i < j < |fs| ==> fs[j].meta.name != fs[i].meta.name
  }

  /** How names and last declarations of `fs` relate to those of `fs`
      without its final feature. */
  lemma DropLast(fs: seq<Feature>)
    requires |fs| > 0
    ensures Names(fs) == Names(fs[..|fs| - 1]) + {fs[|fs| - 1].meta.name}
    ensures forall i :: DeclaredLast(fs, i) && i < |fs| - 1 ==> DeclaredLast(fs[..|fs| - 1], i)
  {
    var init := fs[..|fs| - 1];
    forall k | k in Names(fs) ensures k in Names(init) + {fs[|fs| - 1].meta.name} {
      var i :| 0 <= i < |fs| && fs[i].meta.name == k;
      if i < |fs| - 1 { assert init[i] == fs[i]; }
    }
  }

  /** `_.each(features, f => manifest[f.meta().name] = f.meta())`: one
      assignment per feature in list order, so for a shared name the later
      feature overwrites the earlier one. */
  function BuildManifest(fs: seq<Feature>): (m: Manifest)
    ensures m.Keys == Names(fs)
    ensures forall i :: DeclaredLast(fs, i) ==> m[fs[i].meta.name] == fs[i].meta
  {
    if |fs| == 0 then map[]
    else
      DropLast(fs);
      BuildManifest(fs[..|fs| - 1])[fs[|fs| - 1].meta.name := fs[|fs| - 1].meta]
  }

  /** The feature that declares `k` last, searching from the end. */
  function LastDeclaring(fs: seq<Feature>, k: string): (i: int)
    requires k in Names(fs)
    ensures DeclaredLast(fs, i) && fs[i].meta.name == k
    decreases |fs|
  {
    if fs[|fs| - 1].meta.name == k then |fs| - 1
    else
      assert k in Names(fs[..|fs| - 1]) by {
        var j :| 0 <= j < |fs| && fs[j].meta.name == k;
        assert fs[..|fs| - 1][j] == fs[j];
      }
      LastDeclaring(fs[..|fs| - 1], k)
  }

  /** Every declared name has a manifest entry, which is a descriptor filed
      under its own name and comes from the last feature declaring it. */
  lemma ManifestEntriesAreLastDeclarations(fs: seq<Feature>, k: string)
    requires k in Names(fs)
    ensures k in BuildManifest(fs) && BuildManifest(fs)[k].name == k
    ensures BuildManifest(fs)[k] == fs[LastDeclaring(fs, k)].meta
  {
    assert DeclaredLast(fs, LastDeclaring(fs, k));
  }

  /** With distinct names every feature's descriptor is in the manifest
      under its own name. */
  lemma DistinctNamesAllListed(fs: seq<Feature>)
    requires forall i, j :: 0 <= i < j < |fs| ==> fs[i].meta.name != fs[j].meta.name
    ensures forall i :: 0 <= i < |fs| ==>
      fs[i].meta.name in BuildManifest(fs) && BuildManifest(fs)[fs[i].meta.name] == fs[i].meta
  {
    forall i | 0 <= i < |fs|
      ensures fs[i].meta.name in BuildManifest(fs) && BuildManifest(fs)[fs[i].meta.name] == fs[i].meta
    {
      assert DeclaredLast(fs, i);
      assert fs[i].meta.name in Names(fs);
    }
  }
}

=== FILE: js.dfy ===
/** The few JavaScript value notions the endpoint relies on: values that may be
    undefined, operations that may throw, and the coercion of a value to an
    object property key. */
module Js {

  /** A JavaScript value that is either absent (`None`) or present. `None`
      stands for both `undefined` and `null` wherever the code treats them
      alike: the `||` defaults and a missing `destination`. Only as a
      property key do they differ: a `null` id reads "null", so it is
      `Some("null")`, while an undefined id reads "undefined". */
  datatype Option<+T> = None | Some(value: T)

  /** The outcome of a JavaScript operation that either returns or throws. */
  datatype Result<+R, +E> = Success(value: R) | Failure(error: E)

  /** The built-in exceptions the endpoint code can raise. */
  datatype JsError = TypeError | ReferenceError

  /** The key an undefined value turns into when used as a property name. */
  const UndefinedKey: string := "undefined"

  /** Property access `obj[v]` converts `v` to a string first; an undefined
      `v` becomes the string "undefined". */
  function PropertyKey(id: Option<string>): string {
    match id
    case Some(s) => s
    case None => UndefinedKey
  }
}

=== FILE: lifecycle.dfy ===
/** The order of the hub's lifecycle calls: `run` starting the bind and the
    feature inits (lib/endpoint.js:66-78), and `shutdown` running every
    feature's `shutdown` before closing the server (lib/endpoint.js:108-122).
    Features complete in an order the environment chooses, given as input. */
module Lifecycle {
  import opened Endpoint

  /** Calls `run` makes synchronously: `server.listen`, then `f.init` for each
      feature in list order. */
  datatype Call = Listen | Init(feature: nat)

  /** The calls `run` makes for a hub with `n` features. */
  function StartupCalls(n: nat): seq<Call> {
    [Listen] + seq(n, f requires 0 <= f < n => Init(f))
  }

  /** Listening is started first, each feature's `init` is called exactly once,
      and no call names a feature that does not exist. */
  lemma StartupCallsEachInitOnce(n: nat)
    ensures StartupCalls(n)[0] == Listen
    ensures forall i, j :: 0 <= i < j < |StartupCalls(n)| ==> StartupCalls(n)[i] != StartupCalls(n)[j]
    ensures forall f: nat :: Init(f) in StartupCalls(n) <==> f < n
  {
    var calls := StartupCalls(n);
    forall f: nat | f < n ensures Init(f) in calls {
      assert calls[f + 1] == Init(f);
    }
  }

  /** A feature calling its `shutdown` callback, with or without an error.
      `after` is how many `shutdown` calls the loop had made when the
      callback fired: a feature that calls back inside its own `shutdown`
      has `after == feature + 1`; one that calls back later has `after`
      up to the number of features. */
  datatype Completion = Completion(feature: nat, ok: bool, after: nat)

  /** What the shutdown sequence does, in order. `ShutdownCalled` and
      `ShutdownReturned` are the loop calling a feature and the feature
      calling back; `ServerClose`, `CloseThrew` and `Failed` are the hub's
      reaction. `Failed` is the caller's callback receiving a feature's
      error; `CloseThrew` is the TypeError of `self.server._handle` when
      `run` never created the server. */
  datatype TraceEvent =
    | ShutdownCalled(feature: nat)
    | ShutdownReturned(feature: nat, ok: bool)
    | ServerClose
    | CloseThrew
    | Failed

  /** The close step of `async.series`. */
  function CloseStep(running: bool): TraceEvent {
    if running then ServerClose else CloseThrew
  }

  /** Where `async.series` stands during the shutdown. `Collecting`: the
      loop's callbacks are still being counted. `Closing`: all `n` reported
      success and the close step has run; `async.forEach` still passes a
      later error on, and the series hands it to the caller. `Ended`: an
      error has reached the caller, and `async.forEach` ignores every
      callback after it. */
  datatype Phase = Collecting | Closing | Ended

  /** `async.forEach` over `n` features inside `async.series`, from the point
      where `c` features have been called and `done` have reported success
      while collecting. The loop calls the features in list order without
      waiting; the next completion fires as soon as its `after` calls have
      been made. With `n` successes the close step runs at once (at the
      start, when there are no features); the first error reaches the
      caller as `Failed`, before or after the close. The loop still calls
      the remaining features either way. */
  function Join(n: nat, cs: seq<Completion>, c: nat, done: nat, running: bool, phase: Phase): seq<TraceEvent>
    requires c <= n && done <= n
    decreases n - c + |cs| + (if phase == Collecting then 1 else 0)
  {
    if phase == Collecting && done == n then
      [CloseStep(running)] + Join(n, cs, c, done, running, Closing)
    else if |cs| > 0 && (cs[0].after <= c || c == n) then
      var first := ShutdownReturned(cs[0].feature, cs[0].ok);
      if cs[0].ok then
        if phase == Collecting then [first] + Join(n, cs[1..], c, done + 1, running, Collecting)
        else [first] + Join(n, cs[1..], c, done, running, phase)
      else if phase == Ended then [first] + Join(n, cs[1..], c, done, running, Ended)
      else [first, Failed] + Join(n, cs[1..], c, done, running, Ended)
    else if c < n then
      [ShutdownCalled(c)] + Join(n, cs, c + 1, done, running, phase)
    else []
  }

  /** The shutdown of a hub with `n` features, the features calling back as
      `cs` says. */
  function ShutdownTrace(n: nat, cs: seq<Completion>, running: bool): seq<TraceEvent> {
    Join(n, cs, 0, 0, running, Collecting)
  }

  /** `endpoint.shutdown(callback)` on hub `h`. */
  function Shutdown(h: State, cs: seq<Completion>): seq<TraceEvent> {
    ShutdownTrace(|h.features|, cs, h.running)
  }

  /** The first `m` completions all report success. */
  predicate FirstSucceeded(cs: seq<Completion>, m: nat) {
    m <= |cs| && forall k :: 0 <= k < m ==> cs[k].ok
  }

  /** Each feature calls back at most once, only after it was called, and
      only features that exist call back. */
  predicate WellBehaved(n: nat, cs: seq<Completion>) {
    (forall k :: 0 <= k < |cs| ==> cs[k].feature < n && cs[k].feature < cs[k].after)
    && forall i, j :: 0 <= i < j < |cs| ==> cs[i].feature != cs[j].feature
  }

  /** Feature `f` called back without an error. */
  predicate ReportedSuccess(cs: seq<Completion>, f: nat) {
    exists k :: 0 <= k < |cs| && cs[k].feature == f && cs[k].ok
  }

  lemma {:induction false} FirstSucceededShift(cs: seq<Completion>, m: nat)
    requires |cs| > 0 && cs[0].ok && m > 0
    ensures FirstSucceeded(cs, m) <==> FirstSucceeded(cs[1..], m - 1)
  {
    if FirstSucceeded(cs[1..], m - 1) {
      forall k | 0 <= k < m ensures cs[k].ok {
        if k > 0 { assert cs[k] == cs[1..][k - 1]; }
      }
    }
  }

  /** The join closes the server exactly when it is still collecting, the
      server exists and the next `n - done` completions report success. */
  lemma {:induction false} JoinCloses(n: nat, cs: seq<Completion>, c: nat, done: nat, running: bool, phase: Phase)
    requires c <= n && done <= n
    ensures ServerClose in Join(n, cs, c, done, running, phase)
      <==> phase == Collecting && running && FirstSucceeded(cs, n - done)
    decreases n - c + |cs| + (if phase == Collecting then 1 else 0)
  {
    var t := Join(n, cs, c, done, running, phase);
    if phase == Collecting && done == n {
      JoinCloses(n, cs, c, done, running, Closing);
      assert t == [CloseStep(running)] + Join(n, cs, c, done, running, Closing);
    } else if |cs| > 0 && (cs[0].after <= c || c == n) {
      var first := ShutdownReturned(cs[0].feature, cs[0].ok);
      if cs[0].ok && phase == Collecting {
        JoinCloses(n, cs[1..], c, done + 1, running, Collecting);
        assert t == [first] + Join(n, cs[1..], c, done + 1, running, Collecting);
        FirstSucceededShift(cs, n - done);
      } else {
        var next := if cs[0].ok then phase else Ended;
        var pre := if cs[0].ok || phase == Ended then [first] else [first, Failed];
        JoinCloses(n, cs[1..], c, done, running, next);
        assert t == pre + Join(n, cs[1..], c, done, running, next);
      }
    } else if c < n {
      JoinCloses(n, cs, c + 1, done, running, phase);
      assert t == [ShutdownCalled(c)] + Join(n, cs, c + 1, done, running, phase);
    }
  }

  /** At most one event of `t` is the server close. */
  predicate ClosesAtMostOnce(t: seq<TraceEvent>) {
    forall i, j :: 0 <= i < |t| && 0 <= j < |t| && t[i] == ServerClose && t[j] == ServerClose ==> i == j
  }

  lemma PrependOnce(pre: seq<TraceEvent>, rest: seq<TraceEvent>)
    requires ServerClose in pre ==> ServerClose !in rest
    requires ClosesAtMostOnce(pre) && ClosesAtMostOnce(rest)
    ensures ClosesAtMostOnce(pre + rest)
  {
    var t := pre + rest;
    assert forall i :: 0 <= i < |t| ==> t[i] == if i < |pre| then pre[i] else rest[i - |pre|];
    assert forall i :: |pre| <= i < |t| ==> t[i] in rest;
  }

  /** The join closes the server at most once. */
  lemma {:induction false} JoinClosesAtMostOnce(n: nat, cs: seq<Completion>, c: nat, done: nat, running: bool, phase: Phase)
    requires c <= n && done <= n
    ensures ClosesAtMostOnce(Join(n, cs, c, done, running, phase))
    decreases n - c + |cs| + (if phase == Collecting then 1 else 0)
  {
    if phase == Collecting && done == n {
      JoinClosesAtMostOnce(n, cs, c, done, running, Closing);
      JoinCloses(n, cs, c, done, running, Closing);
      PrependOnce([CloseStep(running)], Join(n, cs, c, done, running, Closing));
    } else if |cs| > 0 && (cs[0].after <= c || c == n) {
      var first := ShutdownReturned(cs[0].feature, cs[0].ok);
      if cs[0].ok && phase == Collecting {
        JoinClosesAtMostOnce(n, cs[1..], c, done + 1, running, Collecting);
        PrependOnce([first], Join(n, cs[1..], c, done + 1, running, Collecting));
      } else {
        var next := if cs[0].ok then phase else Ended;
        var pre := if cs[0].ok || phase == Ended then [first] else [first, Failed];
        JoinClosesAtMostOnce(n, cs[1..], c, done, running, next);
        PrependOnce(pre, Join(n, cs[1..], c, done, running, next));
      }
    } else if c < n {
      JoinClosesAtMostOnce(n, cs, c + 1, done, running, phase);
      PrependOnce([ShutdownCalled(c)], Join(n, cs, c + 1, done, running, phase));
    }
  }

  /** Every callback in `t` is for a feature among the first `c` (called
      before `t` starts) or one called earlier in `t`. */
  predicate CallsPrecedeReturns(t: seq<TraceEvent>, c: nat) {
    forall d :: 0 <= d < |t| && t[d].ShutdownReturned? ==>
      t[d].feature < c || ShutdownCalled(t[d].feature) in t[..d]
  }

  lemma PrependReturns(pre: seq<TraceEvent>, rest: seq<TraceEvent>, c: nat)
    requires forall i :: 0 <= i < |pre| && pre[i].ShutdownReturned? ==> pre[i].feature < c
    requires CallsPrecedeReturns(rest, c)
    ensures CallsPrecedeReturns(pre + rest, c)
  {
    var t := pre + rest;
    forall d | 0 <= d < |t| && t[d].ShutdownReturned?
      ensures t[d].feature < c || ShutdownCalled(t[d].feature) in t[..d]
    {
      if d >= |pre| {
        var e := d - |pre|;
        assert t[d] == rest[e];
        if ShutdownCalled(rest[e].feature) in rest[..e] {
          var i :| 0 <= i < e && rest[i] == ShutdownCalled(rest[e].feature);
          assert t[..d][|pre| + i] == rest[i];
        }
      }
    }
  }

  lemma PrependCall(rest: seq<TraceEvent>, c: nat)
    requires CallsPrecedeReturns(rest, c + 1)
    ensures CallsPrecedeReturns([ShutdownCalled(c)] + rest, c)
  {
    var t := [ShutdownCalled(c)] + rest;
    forall d | 0 <= d < |t| && t[d].ShutdownReturned?
      ensures t[d].feature < c || ShutdownCalled(t[d].feature) in t[..d]
    {
      assert d > 0 && t[d] == rest[d - 1];
      assert t[..d][0] == ShutdownCalled(c);
      if ShutdownCalled(rest[d - 1].feature) in rest[..d - 1] {
        var i :| 0 <= i < d - 1 && rest[i] == ShutdownCalled(rest[d - 1].feature);
        assert t[..d][1 + i] == rest[i];
      }
    }
  }

  /** Completions that fire only after their feature was called: every
      callback in the join is for a feature called before this point or
      earlier in the join. */
  lemma {:induction false} JoinCallsBeforeReturns(n: nat, cs: seq<Completion>, c: nat, done: nat, running: bool, phase: Phase)
    requires c <= n && done <= n
    requires forall k :: 0 <= k < |cs| ==> cs[k].feature < n && cs[k].feature < cs[k].after
    ensures CallsPrecedeReturns(Join(n, cs, c, done, running, phase), c)
    decreases n - c + |cs| + (if phase == Collecting then 1 else 0)
  {
    if phase == Collecting && done == n {
      JoinCallsBeforeReturns(n, cs, c, done, running, Closing);
      PrependReturns([CloseStep(running)], Join(n, cs, c, done, running, Closing), c);
    } else if |cs| > 0 && (cs[0].after <= c || c == n) {
      var first := ShutdownReturned(cs[0].feature, cs[0].ok);
      assert cs[0].feature < c;
      if cs[0].ok && phase == Collecting {
        JoinCallsBeforeReturns(n, cs[1..], c, done + 1, running, Collecting);
        PrependReturns([first], Join(n, cs[1..], c, done + 1, running, Collecting), c);
      } else {
        var next := if cs[0].ok then phase else Ended;
        var pre := if cs[0].ok || phase == Ended then [first] else [first, Failed];
        JoinCallsBeforeReturns(n, cs[1..], c, done, running, next);
        PrependReturns(pre, Join(n, cs[1..], c, done, running, next), c);
      }
    } else if c < n {
      JoinCallsBeforeReturns(n, cs, c + 1, done, running, phase);
      PrependCall(Join(n, cs, c + 1, done, running, phase), c);
    }
  }

  /** Wherever `t` closes the server, the first `m` completions of `cs` have
      already reported success. */
  predicate SuccessesPrecedeClose(t: seq<TraceEvent>, cs: seq<Completion>, m: nat) {
    forall d :: 0 <= d < |t| && t[d] == ServerClose ==>
      m <= |cs| && forall k :: 0 <= k < m ==> ShutdownReturned(cs[k].feature, true) in t[..d]
  }

  lemma PrependOther(x: TraceEvent, rest: seq<TraceEvent>, cs: seq<Completion>, m: nat)
    requires x != ServerClose
    requires SuccessesPrecedeClose(rest, cs, m)
    ensures SuccessesPrecedeClose([x] + rest, cs, m)
  {
    var t := [x] + rest;
    forall d | 0 <= d < |t| && t[d] == ServerClose
      ensures m <= |cs| && forall k :: 0 <= k < m ==> ShutdownReturned(cs[k].feature, true) in t[..d]
    {
      assert t[d] == rest[d - 1];
      assert t[..d] == [x] + rest[..d - 1];
    }
  }

  lemma PrependSuccess(rest: seq<TraceEvent>, cs: seq<Completion>, m: nat)
    requires |cs| > 0 && m > 0
    requires SuccessesPrecedeClose(rest, cs[1..], m - 1)
    ensures SuccessesPrecedeClose([ShutdownReturned(cs[0].feature, true)] + rest, cs, m)
  {
    var first := ShutdownReturned(cs[0].feature, true);
    var t := [first] + rest;
    forall d | 0 <= d < |t| && t[d] == ServerClose
      ensures m <= |cs| && forall k :: 0 <= k < m ==> ShutdownReturned(cs[k].feature, true) in t[..d]
    {
      assert t[d] == rest[d - 1];
      assert t[..d] == [first] + rest[..d - 1];
      forall k | 0 <= k < m ensures ShutdownReturned(cs[k].feature, true) in t[..d] {
        if k > 0 {
          assert cs[k] == cs[1..][k - 1];
          assert ShutdownReturned(cs[1..][k - 1].feature, true) in rest[..d - 1];
        }
      }
    }
  }

  /** When the join closes, each of the next `n - done` completions has
      already reported success. */
  lemma {:induction false} JoinReturnsBeforeClose(n: nat, cs: seq<Completion>, c: nat, done: nat, running: bool, phase: Phase)
    requires c <= n && done <= n
    ensures SuccessesPrecedeClose(Join(n, cs, c, done, running, phase), cs, n - done)
    decreases n - c + |cs| + (if phase == Collecting then 1 else 0)
  {
    var t := Join(n, cs, c, done, running, phase);
    JoinCloses(n, cs, c, done, running, phase);
    if ServerClose !in t {
      // vacuous
    } else if phase == Collecting && done == n {
      // No success is owed: `n - done` is zero.
    } else if |cs| > 0 && (cs[0].after <= c || c == n) {
      // A collecting join that closes later saw a success here.
      JoinReturnsBeforeClose(n, cs[1..], c, done + 1, running, Collecting);
      PrependSuccess(Join(n, cs[1..], c, done + 1, running, Collecting), cs, n - done);
    } else if c < n {
      JoinReturnsBeforeClose(n, cs, c + 1, done, running, phase);
      PrependOther(ShutdownCalled(c), Join(n, cs, c + 1, done, running, phase), cs, n - done);
    }
  }

  /** The server is closed exactly when it exists and the first `n`
      completions all report success; an error among them, or a completion
      still outstanding, means no close. */
  lemma ShutdownClosesIffAllSucceeded(h: State, cs: seq<Completion>)
    ensures ServerClose in Shutdown(h, cs) <==> h.running && FirstSucceeded(cs, |h.features|)
  {
    JoinCloses(|h.features|, cs, 0, 0, h.running, Collecting);
  }

  /** The server close happens at most once. */
  lemma CloseAtMostOnce(h: State, cs: seq<Completion>)
    ensures ClosesAtMostOnce(Shutdown(h, cs))
  {
    JoinClosesAtMostOnce(|h.features|, cs, 0, 0, h.running, Collecting);
  }

  /** The features among the first `m` completions. */
  function Seen(cs: seq<Completion>, m: nat): set<nat>
    requires m <= |cs|
  {
    set k | 0 <= k < m :: cs[k].feature
  }

  /** The feature indices `0 .. n-1`. */
  function Upto(n: nat): (r: set<nat>)
    ensures forall f: nat :: f in r <==> f < n
    ensures |r| == n
  {
    if n == 0 then {} else Upto(n - 1) + {n - 1}
  }

  /** Distinct completions have as many features as entries. */
  lemma {:induction false} SeenSize(cs: seq<Completion>, m: nat)
    requires m <= |cs|
    requires forall i, j :: 0 <= i < j < |cs| ==> cs[i].feature != cs[j].feature
    ensures |Seen(cs, m)| == m
    decreases m
  {
    if m > 0 {
      SeenSize(cs, m - 1);
      assert Seen(cs, m) == Seen(cs, m - 1) + {cs[m - 1].feature};
    }
  }

  lemma SubsetSize(a: set<nat>, b: set<nat>)
    requires a <= b
    ensures |a| <= |b|
  {
    assert b == a + (b - a);
  }

  /** Pigeonhole: `n` well-behaved completions name every one of the `n`
      features, and there are no more than `n` of them. */
  lemma DistinctCover(n: nat, cs: seq<Completion>)
    requires WellBehaved(n, cs) && n <= |cs|
    ensures |cs| == n
    ensures forall f :: 0 <= f < n ==> f in Seen(cs, n)
  {
    SeenSize(cs, |cs|);
    SubsetSize(Seen(cs, |cs|), Upto(n));
    SeenSize(cs, n);
    assert Seen(cs, n) <= Upto(n);
    assert |Upto(n) - Seen(cs, n)| == 0;
    assert Upto(n) == Seen(cs, n);
  }

  /** For well-behaved features: the server is closed exactly when it exists
      and every feature called back without an error. */
  lemma ShutdownClosesIffEveryFeatureSucceeded(h: State, cs: seq<Completion>)
    requires WellBehaved(|h.features|, cs)
    ensures ServerClose in Shutdown(h, cs)
      <==> h.running && forall f :: 0 <= f < |h.features| ==> ReportedSuccess(cs, f)
  {
    var n := |h.features|;
    ShutdownClosesIffAllSucceeded(h, cs);
    if FirstSucceeded(cs, n) {
      DistinctCover(n, cs);
      forall f | 0 <= f < n ensures ReportedSuccess(cs, f) {
        assert f in Seen(cs, n);
        var k :| 0 <= k < n && cs[k].feature == f;
        assert cs[k].ok;
      }
    }
    if forall f :: 0 <= f < n ==> ReportedSuccess(cs, f) {
      // The successes name `n` distinct features, so `cs` has at least `n`
      // entries; having at most `n`, each one is the success of its feature.
      SeenSize(cs, |cs|);
      SubsetSize(Seen(cs, |cs|), Upto(n));
      assert Upto(n) <= Seen(cs, |cs|) by {
        forall f | f in Upto(n) ensures f in Seen(cs, |cs|) {
          assert ReportedSuccess(cs, f);
        }
      }
      SubsetSize(Upto(n), Seen(cs, |cs|));
      assert |cs| == n;
      forall k | 0 <= k < n ensures cs[k].ok {
        assert ReportedSuccess(cs, cs[k].feature);
        var j :| 0 <= j < |cs| && cs[j].feature == cs[k].feature && cs[j].ok;
        assert j == k;
      }
    }
  }

  /** In a trace where callbacks follow their calls and the first `n`
      completions succeed before the close at `d`, feature `f` was called
      and called back successfully before `d`. */
  lemma FeatureStopsBefore(t: seq<TraceEvent>, cs: seq<Completion>, n: nat, d: nat, f: nat)
    requires WellBehaved(n, cs) && CallsPrecedeReturns(t, 0) && SuccessesPrecedeClose(t, cs, n)
    requires d < |t| && t[d] == ServerClose && f < n
    ensures exists i, j :: 0 <= i < j < d && t[i] == ShutdownCalled(f) && t[j] == ShutdownReturned(f, true)
  {
    assert n <= |cs|;
    DistinctCover(n, cs);
    assert f in Seen(cs, n);
    var k :| 0 <= k < n && cs[k].feature == f;
    assert ShutdownReturned(cs[k].feature, true) in t[..d];
    var j :| 0 <= j < d && t[j] == ShutdownReturned(f, true);
    assert t[j].ShutdownReturned?;
    assert ShutdownCalled(f) in t[..j];
    var i :| 0 <= i < j && t[i] == ShutdownCalled(f);
  }

  /** For well-behaved features: if the server is closed, every feature's
      `shutdown` was called and then called back without an error before it. */
  lemma EveryFeatureStopsBeforeClose(h: State, cs: seq<Completion>)
    requires WellBehaved(|h.features|, cs)
    ensures var t := Shutdown(h, cs);
      forall d :: 0 <= d < |t| && t[d] == ServerClose ==>
        forall f :: 0 <= f < |h.features| ==>
          exists i, j :: 0 <= i < j < d && t[i] == ShutdownCalled(f) && t[j] == ShutdownReturned(f, true)
  {
    var n := |h.features|;
    var t := Shutdown(h, cs);
    JoinReturnsBeforeClose(n, cs, 0, 0, h.running, Collecting);
    JoinCallsBeforeReturns(n, cs, 0, 0, h.running, Collecting);
    forall d, f | 0 <= d < |t| && t[d] == ServerClose && 0 <= f < n
      ensures exists i, j :: 0 <= i < j < d && t[i] == ShutdownCalled(f) && t[j] == ShutdownReturned(f, true)
    {
      FeatureStopsBefore(t, cs, n, d, f);
    }
  }

  /** A feature that calls back inside its own `shutdown` does so before the
      next feature is called, and the close follows the last callback. */
  lemma SynchronousCallbacksInterleave()
    ensures ShutdownTrace(2, [Completion(0, true, 1), Completion(1, true, 2)], true)
      == [ShutdownCalled(0), ShutdownReturned(0, true), ShutdownCalled(1), ShutdownReturned(1, true), ServerClose]
  {
  }

  /** An error from the first feature ends the series before the second
      feature is called; the loop still calls it, and no close follows. */
  lemma EarlyErrorStillCallsTheRest()
    ensures ShutdownTrace(2, [Completion(0, false, 1), Completion(1, true, 2)], true)
      == [ShutdownCalled(0), ShutdownReturned(0, false), Failed, ShutdownCalled(1), ShutdownReturned(1, true)]
  {
  }

  /** A feature that calls back a second time, with an error, after the
      close still has its error passed to the caller; a third callback
      after that is ignored. */
  lemma LateErrorAfterCloseReachesCaller()
    ensures ShutdownTrace(1, [Completion(0, true, 1), Completion(0, false, 1), Completion(0, false, 1)], true)
      == [ShutdownCalled(0), ShutdownReturned(0, true), ServerClose, ShutdownReturned(0, false), Failed,
          ShutdownReturned(0, false)]
  {
  }

  /** With no features the server is closed at once. */
  lemma NoFeaturesCloseAtOnce()
    ensures ShutdownTrace(0, [], true) == [ServerClose]
  {
  }
}
